=== FILE: README.md ===
# payment-api in Dafny

This project models the core of payment-api, a small REST service for money
transfers between bank accounts:

- **Customers** own **accounts**.
- An account holds a balance. New accounts open with a default balance of
  2500.58.
- A **transaction** moves an amount from a sender account to a receiver
  account.

The model covers these layers:

- **Model classes.** Nullable fields become `Option` fields. Equality and
  the hash are by id only.
- **Validators.** Each check is modelled in the order the code runs it.
- **Services.** They read and write a relational store. The store has three
  tables with identity keys. Every `NOW()` in one database transaction
  returns the same stamp.
- **Controllers.** The path id, the 404 lookup, the merge of a partial
  update body, validation, the service call, and the errors each can raise.

The centre is the transfer:

1. The controller validates the request.
2. It looks up the receiver, then the sender.
3. It refuses an amount strictly greater than the sender's balance.
4. It computes both new balances on snapshots of the two rows.
5. The service commits in one database transaction: it inserts the record,
   then writes each balance with `WHERE id = ? AND updated = ?`. This
   optimistic version guard fails when a snapshot is stale. Any failure
   rolls back the whole transaction.

The proved properties are:

- **Conservation.** The sum of all balances is unchanged by a transfer.
- **Sign.** The sender never ends negative. With no negative balance
  before and a non-negative amount, no balance ends negative.
- **Stale snapshots.** The guard refuses a stale snapshot. Two interleaved
  transfers that share an account cannot both commit.
- **Store invariant.** Keys, versions and transaction ids stay consistent.
- **Read-back.** Every create and update is visible to the next read.
- **Validators.** Each validator passes exactly on the stated conditions,
  and reports the first failing check.
- **Scenarios.** A few concrete transfers are worked through.

Files:

- `common.dfy`: `Option`, `Result`, the error kinds and messages, and the
  constants.
- `models.dfy`: the three entities, with `equals` and `hashCode`.
- `validators.dfy`: the three validators.
- `database.dfy`: rows, the store, its invariant, and the sum of balances.
- `account_service.dfy`, `customer_service.dfy`, `transaction_service.dfy`:
  the services.
- `account_controller.dfy`, `customer_controller.dfy`,
  `transaction_controller.dfy`: the route handlers.
- `transfer_properties.dfy`: the properties that relate several calls, and
  the scenarios.

Representation choices:

- **Money** is an integer number of hundredths.
- **Timestamps** are natural stamps drawn from a counter in the store. A
  statement or commit stamps with one more than the counter.
- **Errors** are a `Result` whose failure names the exception class
  (`InvalidRequestData`, `NotFound`, `DataBase`, `NotImplemented`) and its
  message. A failing service call carries no store: the caller keeps the
  store it had, since the rollback undoes every row the call wrote. The
  database does not give back an identity value drawn by a rolled-back
  insert; the model does not track that (see "Left out").
- **Null ids.** Passing a null `Long` id to `setLong` unboxes it and
  throws. Where the code does that, the model requires the id to be
  present.

Behaviour of the code worth knowing:

- **Negative amounts.** No check rejects a non-positive amount. A negative
  amount passes the `amount > balance` check and can drive the receiver
  below zero (`TransferProperties.NegativeAmountOverdrawsReceiver`).
- **Conflicts.** A commit that loses the version race raises
  `DataConflictException`, but `createTransaction` catches it and rethrows
  it as `DataBaseException`. The caller therefore sees a database error,
  not a conflict.
- **Title edits.** Editing an account's title also bumps its `updated`
  column. So a title edit invalidates a transfer prepared before it
  (`TransferProperties.TitleEditInvalidatesPreparedTransfer`). It does not
  commute with transfers.
- **The version column.** The guard compares `updated`. It does not compare
  `created`, whatever the comment above it says.
- **Rounding.** `setBalance` and `setAmount` round to two places and then
  overwrite the rounded value with the argument. No rounding takes effect.

## Model

| member | source | states |
|---|---|---|
| Models.SetBalance | src/main/java/app/models/Account.java:24-28 | the stored balance is exactly the argument, unrounded; every other field is unchanged, and the account stays equal to the original |
| Models.SetAmount | src/main/java/app/models/Transaction.java:25-29 | the stored amount is exactly the argument, unrounded; every other field is unchanged, and the transaction stays equal to the original |
| Models.NewCustomer | src/main/java/app/models/Customer.java:19-22 | the two-name constructor sets both names and leaves the id and both timestamps null |
| Models.NewCustomersAreEqual | src/main/java/app/models/Customer.java:19-41 | any two customers built by the two-name constructor are equal, whatever their names, since both ids are null, and both hash to 31 |
| Models.AccountEqualityIsById | src/main/java/app/models/Account.java:30-41 | two accounts are equal exactly when their ids are equal, so equal accounts hash alike; an account never equals null |
| Models.CustomerEqualityIsById | src/main/java/app/models/Customer.java:30-41 | two customers are equal exactly when their ids are equal, so equal customers hash alike |
| Models.CustomerEqualsReflexiveAndClassStrict | src/main/java/app/models/Customer.java:30-36 | a customer equals itself, and never equals null or an object of another class |
| Models.TransactionEqualityIsById | src/main/java/app/models/Transaction.java:31-42 | two transactions are equal exactly when their ids are equal, so equal transactions hash alike; a transaction never equals null |
| Models.IdHashValues | src/main/java/app/models/Account.java:38-41 | `Objects.hash(id)` is 31 for a null id and 31 + id for a small non-negative id; id -1 also hashes to 31 |
| Validators.CheckText | src/main/java/app/models/validators/AccountValidator.java:21-25 | a text property passes exactly when it is non-null, non-empty and at most 255 characters long; otherwise it fails with the given message |
| Validators.ValidateAccount | src/main/java/app/models/validators/AccountValidator.java:20-29 | passes exactly when the title is valid text and the customer id is present; a bad title is reported before a missing customer id |
| Validators.ValidateCustomer | src/main/java/app/models/validators/CustomerValidator.java:20-32 | passes exactly when both names are valid text; the first name is reported before the last name |
| Validators.ValidateTransaction | src/main/java/app/models/validators/TransactionValidator.java:20-38 | passes exactly when the title is valid, the amount and both account ids are present, and the ids differ; a failure reports the first failing check in source order |
| Validators.TitleCheckedFirst | src/main/java/app/models/validators/TransactionValidator.java:21-25 | a 255-character title is accepted and a 256-character one is refused with the title message, whatever else the request holds |
| Validators.ValidatorsIgnoreOtherFields | src/main/java/app/models/validators/AccountValidator.java:20-29 | the verdict of each validator does not depend on id, balance or timestamps |
| Validators.NegativeAmountPassesValidation | src/main/java/app/models/validators/TransactionValidator.java:27-28 | a negative amount passes validation when the other checks pass: only a null amount is refused |
| Database.EmptyIsValid | src/main/java/app/db/DataSource.java:42-75 | the freshly created schema satisfies the store invariant |
| Database.CustomerOf | src/main/java/app/services/CustomerService.java:124-132 | the customer read from a row carries the key and every column, none null |
| Database.AccountOf | src/main/java/app/services/AccountService.java:151-160 | the account read from a row carries the key and every column, none null |
| Database.TransactionOf | src/main/java/app/services/TransactionService.java:168-178 | the transaction read from a row carries every column, none null |
| Database.RowReadersAreLossless | src/main/java/app/services/AccountService.java:151-160 | reading a row loses nothing: the row is recovered from the object read, and an object with every column present is the one read from its row |
| AccountService.GetAccount | src/main/java/app/services/AccountService.java:78-90 | null exactly when no row has the id; otherwise the account read from that row, carrying the id |
| AccountService.GetAccountsByCustomerId | src/main/java/app/services/AccountService.java:54-69 | every returned account belongs to the customer and is stored; ids are distinct; in a valid store every account of the customer is returned |
| AccountService.CreateAccount | src/main/java/app/services/AccountService.java:99-120 | the insert succeeds exactly when the title fits VARCHAR(255), the balance is present and the customer exists; it adds exactly one key, the next identity, with `updated == created`; only the account table, its identity counter and the clock move, the other identity counters stay put, and in a valid store every existing account row is kept and the store stays valid |
| AccountService.UpdateAccount | src/main/java/app/services/AccountService.java:129-142 | a missing id fails with "no rows affected"; otherwise only the title and `updated` of that one row change, no identity counter moves, nothing else in the store changes but the clock, and the store stays valid |
| AccountService.UpdateAccountKeepsBalance | src/main/java/app/services/AccountService.java:130 | an update never changes the balance, owner or creation stamp, whatever balance the body carries |
| CustomerService.GetCustomer | src/main/java/app/services/CustomerService.java:50-62 | null exactly when no row has the id; otherwise the customer read from that row |
| CustomerService.CreateCustomer | src/main/java/app/services/CustomerService.java:71-91 | the insert succeeds exactly when both names fit their columns; it adds exactly the next identity; only the customer table, its identity counter and the clock move; in a valid store every existing customer row is kept and the store stays valid |
| CustomerService.UpdateCustomer | src/main/java/app/services/CustomerService.java:100-115 | a missing id fails with "could not update user"; otherwise only that row's names and `updated` change, no identity counter moves, and nothing else in the store changes but the clock |
| CustomerService.UpdateCustomerKeepsCreated | src/main/java/app/services/CustomerService.java:101 | an update keeps the creation stamp and strictly advances `updated` |
| TransactionService.GetTransactions | src/main/java/app/services/TransactionService.java:32-46 | one transaction per stored row, in table order |
| TransactionService.ListingAgreesWithLookup | src/main/java/app/services/TransactionService.java:32-46 | in a valid store, every record the full listing returns is found again by its id with the single-record lookup |
| TransactionService.GetTransactionsByAccountId | src/main/java/app/services/TransactionService.java:55-71 | a stored record is listed exactly when the account is its sender or its receiver; every listed element is a stored record; in a valid store the list is in ascending id order, so no record appears twice |
| TransactionService.GetTransaction | src/main/java/app/services/TransactionService.java:147-159 | null exactly when no row has the id; otherwise a stored record with that id |
| TransactionService.GetTransactionFindsStoredRecord | src/main/java/app/services/TransactionService.java:147-159 | in a valid store, looking up a stored id returns exactly that row's record |
| TransactionService.GuardedWrite | src/main/java/app/services/TransactionService.java:88-122 | the guarded update affects no row exactly when the snapshot's version is stale or missing; otherwise it writes the snapshot's balance and a new version to that one row |
| TransactionService.CreateTransaction | src/main/java/app/services/TransactionService.java:84-138 | every failure is a database error and leaves the store as it was; a bad insert gives an SQL error, a stale sender the sender message, a stale receiver the receiver message; success appends exactly the new record and rewrites exactly the two accounts; only the transaction identity counter and the clock move besides |
| TransactionService.CommitAppendsToHistory | src/main/java/app/services/TransactionService.java:84-138 | the history is append-only: after a commit, the full listing is the earlier listing followed by exactly the new record |
| TransactionService.CommitKeepsStoreValid | src/main/java/app/services/TransactionService.java:124-131 | a commit keeps the store invariant, and the read-back by the generated key returns exactly the committed record |
| AccountController.GetAccount | src/main/java/app/controllers/AccountController.java:71-79 | not found exactly when no account has the id; otherwise the stored account |
| AccountController.CreateAccount | src/main/java/app/controllers/AccountController.java:84-99 | a validation error first, then an unknown customer as invalid request data; on success the account holds the default balance 2500.58, whatever balance the body carried; only the account table, its identity counter and the clock move, and in a valid store every existing account row is kept and the store stays valid |
| AccountController.MergeAccount | src/main/java/app/controllers/AccountController.java:111-115 | the merged body takes the path's id and the stored owner, and keeps the stored title exactly when the body has none |
| AccountController.UpdateAccount | src/main/java/app/controllers/AccountController.java:104-122 | not found is checked before validation; on success only the title can change, and balance, owner and creation stamp are kept; no identity counter moves and no other row changes |
| AccountController.DeleteAccount | src/main/java/app/controllers/AccountController.java:127-129 | always fails with not-implemented |
| AccountController.GetAccountTransactions | src/main/java/app/controllers/AccountController.java:134-146 | not found for an unknown account; otherwise a stored record is listed exactly when the account sends or receives it, every listed element is a stored record, and in a valid store they come in ascending id order |
| AccountController.CreatedAccountReadsBack | src/main/java/app/controllers/AccountController.java:84-99 | a created account is returned by a later get, appears among its customer's accounts, and the store stays valid |
| AccountController.UpdatedAccountReadsBack | src/main/java/app/controllers/AccountController.java:104-122 | an updated account is returned as updated by a later get |
| CustomerController.GetCustomer | src/main/java/app/controllers/CustomerController.java:61-70 | not found exactly when no customer has the id; otherwise the stored customer |
| CustomerController.CreateCustomer | src/main/java/app/controllers/CustomerController.java:75-81 | succeeds exactly when both names validate, creating a customer with those names under the next id; only the customer table, its identity counter and the clock move, and in a valid store every existing customer row is kept and the store stays valid |
| CustomerController.MergeCustomer | src/main/java/app/controllers/CustomerController.java:93-98 | the merged body takes the path's id, and each name the body leaves null comes from the stored customer |
| CustomerController.UpdateCustomer | src/main/java/app/controllers/CustomerController.java:86-105 | not found, naming the id, is checked before validation; on success the names are merged and the creation stamp is kept; no identity counter moves and no other row changes |
| CustomerController.DeleteCustomer | src/main/java/app/controllers/CustomerController.java:111-113 | always fails with not-implemented |
| CustomerController.GetCustomerAccounts | src/main/java/app/controllers/CustomerController.java:118-129 | not found for an unknown customer; otherwise every element is the account read from a stored row that the customer owns, no account twice, and in a valid store every account of the customer |
| CustomerController.CreatedCustomerReadsBack | src/main/java/app/controllers/CustomerController.java:75-81 | a created customer is returned by a later get, and the store stays valid |
| CustomerController.UpdatedCustomerReadsBack | src/main/java/app/controllers/CustomerController.java:86-105 | an updated customer is returned as updated by a later get |
| TransactionController.GetTransaction | src/main/java/app/controllers/TransactionController.java:55-63 | not found exactly when no stored record has the id; otherwise a stored record with that id |
| TransactionController.Prepare | src/main/java/app/controllers/TransactionController.java:68-90 | errors in order: validation, unknown receiver, unknown sender, then insufficient balance when the amount strictly exceeds it; on success the snapshots carry balance minus and plus the amount and the versions read |
| TransactionController.CreateTransaction | src/main/java/app/controllers/TransactionController.java:68-97 | on a store with no concurrent writer the commit succeeds exactly when the checks pass; the sender loses and the receiver gains the amount, their sum is kept, the sender stays non-negative, and exactly one record carrying the request's fields is appended; no customer, no other account and no identity counter but the transaction one changes |
| TransferProperties.TransferConservesHoldings | src/main/java/app/controllers/TransactionController.java:84-93 | the sum of all balances in the store is the same after any successful transfer, and the store stays valid |
| TransferProperties.TransferKeepsBalancesNonNegative | src/main/java/app/controllers/TransactionController.java:84-90 | with no negative balance before and a non-negative amount, no balance is negative after |
| TransferProperties.NegativeAmountOverdrawsReceiver | src/main/java/app/controllers/TransactionController.java:84-90 | a transfer of -500.00 between two accounts of 300.00 succeeds and leaves 800.00 and -200.00 |
| TransferProperties.TransferListedForBothAccounts | src/main/java/app/services/TransactionService.java:124-131 | the committed record is found by its id and is listed for both the sender's and the receiver's account |
| TransferProperties.StaleSnapshotConflicts | src/main/java/app/services/TransactionService.java:108-122 | once a commit succeeds, a commit whose sender snapshot carries either old version fails with a database error, the sender conflict when its record is insertable |
| TransferProperties.InterleavedTransfersSharingAnAccount | src/main/java/app/services/TransactionService.java:108-122 | two transfers prepared on the same store and sharing an account cannot both commit: the second fails on its sender or receiver guard, and only the first's effect remains |
| TransferProperties.TitleEditInvalidatesPreparedTransfer | src/main/java/app/services/AccountService.java:130 | a title edit on either account of a prepared transfer makes its commit fail on that account's guard |
| TransferProperties.RentScenario | src/main/java/app/controllers/TransactionController.java:68-97 | 100.00 from an account of 300.00 to another leaves 200.00 and 400.00 and one record; a following 250.00 is refused for insufficient balance |
| TransferProperties.SameAccountScenario | src/main/java/app/models/validators/TransactionValidator.java:36-37 | a transfer from an account to itself is refused as same-account |

## Left out

- HTTP routing, status codes, JSON (de)serialisation and path-parameter
  parsing (`RequestUtils`, `ObjectTransformer`, `Application`). Handlers
  take already parsed ids and bodies.
- The list-all routes and the services behind them (`getAllAccounts`,
  `getAllCustomers`, `getAllTransactions`, `getAccounts`, `getCustomers`).
  They are plain table scans without the logic of the modelled routes.
- The connection pool and the DDL in `DataSource`. The schema's NOT NULL,
  VARCHAR(255) and foreign-key constraints appear only as the SQL error
  they produce.
- Real concurrency. Interleaved requests are modelled as sequential calls
  against a shared store, with each request's snapshot read before the
  other commits. Database isolation levels are not modelled.
- Wall-clock time. `NOW()` is a strictly increasing counter. Real
  timestamps can collide at clock resolution, and then the version guard
  would miss a concurrent write.
- TransactionService.CreateTransaction: the identity value the INSERT
  draws is consumed even when a later guarded write fails and the
  transaction rolls back, so after a conflict the database skips one
  transaction id. The model keeps `nextTransactionId` on every failure,
  so its ids are consecutive. Uniqueness and ascending order of ids hold
  either way; the exact id a record receives after a failed commit is
  not modelled. The same holds for an account or customer insert that
  fails on a constraint.
- The failure branches after a successful statement: the zero-row
  INSERT, and a missing generated key or row on the read-back. The model
  takes the database to report the row it wrote.
- BigDecimal scale. Amounts are whole hundredths, so amounts with more
  than two decimals are not represented. The rounding in the setters
  has no effect in the code and is not modelled.
- String length. Java measures UTF-16 code units; the model counts
  characters.
- The `this == o` shortcut in `equals`. Values have no identity here, and
  the shortcut never changes the result for equal ids.
- `Long` overflow of the identity counters. Integers are unbounded; only
  `hashCode` models the 64-bit and 32-bit arithmetic.
- The order of rows in SQL list results. The model lists ascending by id
  (accounts) or in table order (transactions).
- Error texts are modelled as one constructor per message constant, not
  as strings.

=== FILE: account_controller.dfy ===
/** AccountController: the request handling around accounts. Path ids
    arrive already parsed; request bodies arrive as Account objects. */
module AccountController {
  import opened Common
  import opened Models
  import opened Validators
  import opened Database
  import AccountService
  import CustomerService
  import TransactionService

  /** GET /account/:aid */
  function GetAccount(db: Db, id: int): (r: Result<Account>)
    ensures r.Failure? <==> id !in db.accounts
    ensures r.Failure? ==> r.error == NotFound(CouldNotFindAccount)
    ensures r.Success? ==> r.value.id == Some(id) && r.value == AccountOf(id, db.accounts[id])
  {
    match AccountService.GetAccount(db, id)
    case None => Failure(NotFound(CouldNotFindAccount))
    case Some(a) => Success(a)
  }

  /** POST /account: validate the body, require an existing customer, then
      force the default balance over whatever the body held. */
  function CreateAccount(db: Db, request: Account): (r: Result<(Db, Account)>)
    ensures ValidateAccount(request).Fail? ==> r == Failure(ValidateAccount(request).error)
    ensures ValidateAccount(request).Pass? && request.customerId.value !in db.customers ==>
      r == Failure(InvalidRequestData(CouldNotFindCustomer))
    ensures r.Success? <==> ValidateAccount(request).Pass? && request.customerId.value in db.customers
    ensures r.Success? ==>
      var (db', created) := r.value;
      && created.balance == Some(AccountDefaultBalance)
      && created.title == request.title && created.customerId == request.customerId
      && created.id == Some(db.nextAccountId)
      && db'.accounts.Keys == db.accounts.Keys + {db.nextAccountId}
      && created == AccountOf(db.nextAccountId, db'.accounts[db.nextAccountId])
      && db'.customers == db.customers && db'.transactions == db.transactions
      && db' == db.(accounts := db'.accounts, nextAccountId := db.nextAccountId + 1, clock := Now(db))
    ensures r.Success? && Valid(db) ==>
      var db' := r.value.0;
      && Valid(db')
      && forall k :: k in db.accounts ==> db'.accounts[k] == db.accounts[k]
  {
    match ValidateAccount(request)
    case Fail(e) => Failure(e)
    case Pass =>
      match CustomerService.GetCustomer(db, request.customerId.value)
      case None => Failure(InvalidRequestData(CouldNotFindCustomer))
      case Some(_) => AccountService.CreateAccount(db, SetBalance(request, Some(AccountDefaultBalance)))
  }

  /** The body of an update after the merge: the path's id, the stored
      owner, and the stored title when the body has none. */
  function MergeAccount(existing: Account, request: Account): (merged: Account)
    ensures merged.id == existing.id && merged.customerId == existing.customerId
    ensures merged.title == (if request.title.None? then existing.title else request.title)
    ensures merged.balance == request.balance
  {
    var merged := request.(id := existing.id, customerId := existing.customerId);
    if merged.title.None? then merged.(title := existing.title) else merged
  }

  /** PATCH /account/:aid: NotFound before anything is validated; the
      stored title only changes, whatever else the body holds. */
  function UpdateAccount(db: Db, id: int, request: Account): (r: Result<(Db, Account)>)
    ensures id !in db.accounts ==> r == Failure(NotFound(CouldNotFindAccount))
    ensures id in db.accounts ==>
      var merged := MergeAccount(AccountOf(id, db.accounts[id]), request);
      && (ValidateAccount(merged).Fail? ==> r == Failure(ValidateAccount(merged).error))
      && (r.Success? <==> ValidateAccount(merged).Pass?)
    ensures r.Success? ==>
      var (db', updated) := r.value;
      var before := db.accounts[id];
      && id in db'.accounts
      && updated == AccountOf(id, db'.accounts[id])
      && updated.id == Some(id)
      && updated.customerId == Some(before.customerId)
      && updated.balance == Some(before.balance)
      && updated.created == Some(before.created)
      && updated.title == (if request.title.None? then Some(before.title) else request.title)
      && AccountsChangedOnlyAt(db, db', {id})
      && db'.customers == db.customers && db'.transactions == db.transactions
      && db' == db.(accounts := db'.accounts, clock := Now(db))
  {
    match AccountService.GetAccount(db, id)
    case None => Failure(NotFound(CouldNotFindAccount))
    case Some(existing) =>
      var merged := MergeAccount(existing, request);
      match ValidateAccount(merged)
      case Fail(e) => Failure(e)
      case Pass => AccountService.UpdateAccount(db, merged)
  }

  /** DELETE /account/:aid is routed to a handler that always throws. */
  function DeleteAccount(db: Db, id: int): (r: Result<Db>)
    ensures r.Failure? && r.error == NotImplemented
  {
    Failure(NotImplemented)
  }

  /** GET /account/:aid/transaction */
  function GetAccountTransactions(db: Db, id: int): (r: Result<seq<Transaction>>)
    ensures r.Failure? <==> id !in db.accounts
    ensures r.Failure? ==> r.error == NotFound(CouldNotFindAccount)
    ensures r.Success? ==>
      && (forall row :: row in db.transactions ==>
            (TransactionOf(row) in r.value <==> TransactionService.Involves(row, id)))
      && (forall i :: 0 <= i < |r.value| ==>
            && (r.value[i].senderAccountId == Some(id) || r.value[i].receiverAccountId == Some(id))
            && exists row :: row in db.transactions && r.value[i] == TransactionOf(row))
      && (Valid(db) ==> forall i, j :: 0 <= i < j < |r.value| ==> r.value[i].id.value < r.value[j].id.value)
  {
    match AccountService.GetAccount(db, id)
    case None => Failure(NotFound(CouldNotFindAccount))
    case Some(existing) => Success(TransactionService.GetTransactionsByAccountId(db, existing.id.value))
  }

  /** A created account is found again by its id and is listed among its
      customer's accounts. */
  lemma CreatedAccountReadsBack(db: Db, request: Account)
    requires Valid(db)
    requires CreateAccount(db, request).Success?
    ensures var (db', created) := CreateAccount(db, request).value;
            && GetAccount(db', db.nextAccountId) == Success(created)
            && created in AccountService.GetAccountsByCustomerId(db', request.customerId.value)
            && Valid(db')
  {
  }

  /** An update is visible to the next read, with the merged title. */
  lemma UpdatedAccountReadsBack(db: Db, id: int, request: Account)
    requires Valid(db)
    requires UpdateAccount(db, id, request).Success?
    ensures var (db', updated) := UpdateAccount(db, id, request).value;
            && GetAccount(db', id) == Success(updated)
            && Valid(db')
  {
  }
}

=== FILE: account_service.dfy ===
/** AccountService: point lookup, listing by owner, insert and title update
    of account rows. */
module AccountService {
  import opened Common
  import opened Models
  import opened Database

  /** getAccount: the stored row with that id, or null. */
  function GetAccount(db: Db, id: int): (r: Option<Account>)
    ensures r.Some? <==> id in db.accounts
    ensures r.Some? ==> r.value == AccountOf(id, db.accounts[id])
  {
    if id in db.accounts then Some(AccountOf(id, db.accounts[id])) else None
  }

  /** The ids in [lo, hi) of the accounts owned by customer c, ascending. */
  function OwnedIds(accounts: map<int, AccountRow>, c: int, lo: int, hi: int): (ids: seq<int>)
    ensures forall i :: 0 <= i < |ids| ==> lo <= ids[i] < hi && ids[i] in accounts && accounts[ids[i]].customerId == c
    ensures forall id :: lo <= id < hi && id in accounts && accounts[id].customerId == c ==> id in ids
    ensures forall i, j :: 0 <= i < j < |ids| ==> ids[i] < ids[j]
    decreases hi - lo
  {
    if hi <= lo then []
    else (if lo in accounts && accounts[lo].customerId == c then [lo] else []) + OwnedIds(accounts, c, lo + 1, hi)
  }

  /** getAccountsByCustomerId: `SELECT * FROM account WHERE customer_id = ?`.
      SQL leaves the order open; the model lists the rows by ascending id. */
  function GetAccountsByCustomerId(db: Db, c: int): (r: seq<Account>)
    ensures forall i :: 0 <= i < |r| ==>
      && r[i].customerId == Some(c)
      && r[i].id.Some? && r[i].id.value in db.accounts
      && r[i] == AccountOf(r[i].id.value, db.accounts[r[i].id.value])
    ensures forall i, j :: 0 <= i < j < |r| ==> r[i].id != r[j].id
    ensures Valid(db) ==> forall id :: id in db.accounts && db.accounts[id].customerId == c ==> AccountOf(id, db.accounts[id]) in r
  {
    var ids := OwnedIds(db.accounts, c, 1, db.nextAccountId);
    OwnedAccountsComplete(db, c, ids);
    AccountsAt(db.accounts, ids)
  }

  /** The accounts stored under the given keys, in key order. */
  function AccountsAt(accounts: map<int, AccountRow>, ids: seq<int>): (r: seq<Account>)
    requires forall i :: 0 <= i < |ids| ==> ids[i] in accounts
    ensures |r| == |ids|
    ensures forall i :: 0 <= i < |r| ==> r[i] == AccountOf(ids[i], accounts[ids[i]]) && r[i].id == Some(ids[i])
  {
    seq(|ids|, i requires 0 <= i < |ids| => AccountOf(ids[i], accounts[ids[i]]))
  }

  /** In a valid store every key lies below the next identity, so listing
      the owned keys of [1, next) lists every account of the customer. */
  lemma OwnedAccountsComplete(db: Db, c: int, ids: seq<int>)
    requires ids == OwnedIds(db.accounts, c, 1, db.nextAccountId)
    ensures Valid(db) ==> forall id :: id in db.accounts && db.accounts[id].customerId == c ==> AccountOf(id, db.accounts[id]) in AccountsAt(db.accounts, ids)
  {
    var r := AccountsAt(db.accounts, ids);
    forall id | Valid(db) && id in db.accounts && db.accounts[id].customerId == c
      ensures AccountOf(id, db.accounts[id]) in r
    {
      var k :| 0 <= k < |ids| && ids[k] == id;
      assert r[k] == AccountOf(id, db.accounts[id]);
    }
  }

  /** createAccount: insert (customer_id, title, balance, NOW(), NOW()) and
      read the new row back. The columns are NOT NULL, the title is a
      VARCHAR(255) and customer_id must name a customer; a violation is an
      SQLException. A null customerId cannot even be bound (`setLong`). */
  function CreateAccount(db: Db, a: Account): (r: Result<(Db, Account)>)
    requires a.customerId.Some?
    ensures r.Success? <==> FitsVarchar(a.title) && a.balance.Some? && a.customerId.value in db.customers
    ensures r.Failure? ==> r.error == DataBase(SqlFailure)
    ensures r.Success? ==>
      var (db', created) := r.value;
      && created.id == Some(db.nextAccountId)
      && created.customerId == a.customerId && created.title == a.title && created.balance == a.balance
      && created.updated == created.created == Some(Now(db))
      && db.nextAccountId in db'.accounts && created == AccountOf(db.nextAccountId, db'.accounts[db.nextAccountId])
      && db'.accounts.Keys == db.accounts.Keys + {db.nextAccountId}
      && db'.nextAccountId == db.nextAccountId + 1
      && db'.customers == db.customers && db'.transactions == db.transactions
      && db' == db.(accounts := db'.accounts, nextAccountId := db.nextAccountId + 1, clock := Now(db))
    ensures r.Success? && Valid(db) ==>
      && Valid(r.value.0)
      && |r.value.0.accounts| == |db.accounts| + 1
      && (forall id :: id in db.accounts ==> r.value.0.accounts[id] == db.accounts[id])
  {
    if !FitsVarchar(a.title) || a.balance.None? || a.customerId.value !in db.customers then
      Failure(DataBase(SqlFailure))
    else
      var id := db.nextAccountId;
      var now := Now(db);
      var row := AccountRow(a.customerId.value, a.title.value, a.balance.value, now, now);
      var db' := db.(accounts := db.accounts[id := row], nextAccountId := id + 1, clock := now);
      assert Valid(db) ==> id !in db.accounts;
      Success((db', AccountOf(id, row)))
  }

  /** updateAccount: `UPDATE account SET title = ?, updated = NOW() WHERE id = ?`.
      Zero rows affected throws; a null or over-long title violates the
      column. Only the title and the version move. */
  function UpdateAccount(db: Db, a: Account): (r: Result<(Db, Account)>)
    requires a.id.Some?
    ensures a.id.value !in db.accounts ==> r == Failure(DataBase(CouldNotUpdateAccount))
    ensures a.id.value in db.accounts ==> (r.Success? <==> FitsVarchar(a.title))
    ensures r.Failure? ==> r.error.DataBase?
    ensures r.Success? ==>
      var (db', updated) := r.value;
      var id := a.id.value;
      && id in db.accounts && id in db'.accounts
      && db'.accounts[id] == db.accounts[id].(title := a.title.value, updated := Now(db))
      && updated == AccountOf(id, db'.accounts[id])
      && AccountsChangedOnlyAt(db, db', {id})
      && db'.customers == db.customers && db'.transactions == db.transactions
      && db' == db.(accounts := db'.accounts, clock := Now(db))
    ensures r.Success? && Valid(db) ==> Valid(r.value.0)
  {
    var id := a.id.value;
    if id !in db.accounts then Failure(DataBase(CouldNotUpdateAccount))
    else if !FitsVarchar(a.title) then Failure(DataBase(SqlFailure))
    else
      var now := Now(db);
      var row := db.accounts[id].(title := a.title.value, updated := now);
      var db' := db.(accounts := db.accounts[id := row], clock := now);
      Success((db', AccountOf(id, row)))
  }

  /** An update keeps balance, owner and creation stamp, and bumps the
      version past every version stored before. */
  lemma UpdateAccountKeepsBalance(db: Db, a: Account)
    requires Valid(db) && a.id.Some?
    requires UpdateAccount(db, a).Success?
    ensures var before := db.accounts[a.id.value];
            var after := UpdateAccount(db, a).value.0.accounts[a.id.value];
            && after.balance == before.balance
            && after.customerId == before.customerId
            && after.created == before.created
            && after.title == a.title.value
            && after.updated > before.updated
  {
  }
}

=== FILE: common.dfy ===
/** Shared vocabulary of the payment service model: nullable values,
    results, the error taxonomy of the service's exception classes and the
    model-wide constants. */
module Common {

  /** A Java reference that may be null. */
  datatype Option<+T> = None | Some(value: T)

  /** The outcome of an operation that may throw one of the service's exceptions. */
  datatype Result<+T> = Success(value: T) | Failure(error: Error) {
    predicate IsFailure() {
      Failure?
    }

    function PropagateFailure<U>(): Result<U>
      requires Failure?
    {
      Failure(error)
    }

    function Extract(): T
      requires Success?
    {
      value
    }
  }

  /** A check that either passes or throws. */
  datatype Outcome = Pass | Fail(error: Error)

  /** Money in hundredths of the currency unit. BigDecimal addition,
      subtraction and comparison are exact, so integers lose nothing. */
  type Money = int

  /** A row version. The source stores wall-clock `NOW()` timestamps; the
      model draws them from a strictly increasing counter. */
  type Stamp = nat

  /** ModelConstants.ACCOUNT_DEFAULT_BALANCE, 2500.58, in hundredths. */
  const AccountDefaultBalance: Money := 250058

  /** Longest title or name the validators accept (and the VARCHAR width). */
  const MaxTextLength: nat := 255

  /** The error texts of ErrorMessages, one constructor per constant. Several
      constants share the same text in the source; here they stay distinct. */
  datatype Message =
    | CouldNotFindAccount
    | CouldNotFindCustomer
    | CouldNotFindTransaction
    /** The formatted "Could not find customer with id: %s" of a customer update. */
    | CouldNotFindCustomerWithId(id: int)
    | InvalidPropertyTitle
    | InvalidPropertyFirstName
    | InvalidPropertyLastName
    | InvalidPropertyCustomerId
    | InvalidPropertyAmount
    | InvalidPropertySenderAccountId
    | InvalidPropertyReceiverAccountId
    | SameAccount
    | UnknownSender
    | UnknownReceiver
    | InsufficientBalance

  /** The reasons a storage call throws. */
  datatype Fault =
    /** An SQLException: a NOT NULL, VARCHAR(255) or foreign-key violation. */
    | SqlFailure
    | CouldNotUpdateSenderAccount
    | CouldNotUpdateReceiverAccount
    | CouldNotUpdateAccount
    | CouldNotUpdateUser

  /** One constructor per exception class that reaches a caller of a core
      operation. The conflict of a guarded write is caught inside the
      service and rethrown as a database error, so it has none of its own. */
  datatype Error =
    | InvalidRequestData(message: Message)
    | NotFound(message: Message)
    | DataBase(fault: Fault)
    | NotImplemented
}

=== FILE: customer_controller.dfy ===
/** CustomerController: the request handling around customers. */
module CustomerController {
  import opened Common
  import opened Models
  import opened Validators
  import opened Database
  import AccountService
  import CustomerService

  /** GET /customer/:cid */
  function GetCustomer(db: Db, id: int): (r: Result<Customer>)
    ensures r.Failure? <==> id !in db.customers
    ensures r.Failure? ==> r.error == NotFound(CouldNotFindCustomer)
    ensures r.Success? ==> r.value.id == Some(id) && r.value == CustomerOf(id, db.customers[id])
  {
    match CustomerService.GetCustomer(db, id)
    case None => Failure(NotFound(CouldNotFindCustomer))
    case Some(c) => Success(c)
  }

  /** POST /customer: validate the names, then insert. */
  function CreateCustomer(db: Db, request: Customer): (r: Result<(Db, Customer)>)
    ensures ValidateCustomer(request).Fail? ==> r == Failure(ValidateCustomer(request).error)
    ensures r.Success? <==> ValidateCustomer(request).Pass?
    ensures r.Success? ==>
      var (db', created) := r.value;
      && created.id == Some(db.nextCustomerId)
      && created.firstName == request.firstName && created.lastName == request.lastName
      && db'.customers.Keys == db.customers.Keys + {db.nextCustomerId}
      && created == CustomerOf(db.nextCustomerId, db'.customers[db.nextCustomerId])
      && db'.accounts == db.accounts && db'.transactions == db.transactions
      && db' == db.(customers := db'.customers, nextCustomerId := db.nextCustomerId + 1, clock := Now(db))
    ensures r.Success? && Valid(db) ==>
      var db' := r.value.0;
      && Valid(db')
      && forall k :: k in db.customers ==> db'.customers[k] == db.customers[k]
  {
    match ValidateCustomer(request)
    case Fail(e) => Failure(e)
    case Pass => CustomerService.CreateCustomer(db, request)
  }

  /** The body of an update after the merge: the path's id, and each name
      the body leaves null taken from the stored customer. */
  function MergeCustomer(existing: Customer, request: Customer): (merged: Customer)
    ensures merged.id == existing.id
    ensures merged.firstName == (if request.firstName.None? then existing.firstName else request.firstName)
    ensures merged.lastName == (if request.lastName.None? then existing.lastName else request.lastName)
  {
    var merged := request.(id := existing.id);
    var merged := if merged.firstName.None? then merged.(firstName := existing.firstName) else merged;
    if merged.lastName.None? then merged.(lastName := existing.lastName) else merged
  }

  /** PATCH /customer/:cid: NotFound (with the id in its text) first, then
      the merged names are validated and written. */
  function UpdateCustomer(db: Db, id: int, request: Customer): (r: Result<(Db, Customer)>)
    ensures id !in db.customers ==> r == Failure(NotFound(CouldNotFindCustomerWithId(id)))
    ensures id in db.customers ==>
      var merged := MergeCustomer(CustomerOf(id, db.customers[id]), request);
      && (ValidateCustomer(merged).Fail? ==> r == Failure(ValidateCustomer(merged).error))
      && (r.Success? <==> ValidateCustomer(merged).Pass?)
    ensures r.Success? ==>
      var (db', updated) := r.value;
      var before := db.customers[id];
      && id in db'.customers
      && updated == CustomerOf(id, db'.customers[id])
      && updated.firstName == (if request.firstName.None? then Some(before.firstName) else request.firstName)
      && updated.lastName == (if request.lastName.None? then Some(before.lastName) else request.lastName)
      && updated.created == Some(before.created)
      && CustomersChangedOnlyAt(db, db', id)
      && db'.accounts == db.accounts && db'.transactions == db.transactions
      && db' == db.(customers := db'.customers, clock := Now(db))
  {
    match CustomerService.GetCustomer(db, id)
    case None => Failure(NotFound(CouldNotFindCustomerWithId(id)))
    case Some(existing) =>
      var merged := MergeCustomer(existing, request);
      match ValidateCustomer(merged)
      case Fail(e) => Failure(e)
      case Pass => CustomerService.UpdateCustomer(db, merged)
  }

  /** DELETE /customer/:cid always throws. */
  function DeleteCustomer(db: Db, id: int): (r: Result<Db>)
    ensures r.Failure? && r.error == NotImplemented
  {
    Failure(NotImplemented)
  }

  /** GET /customer/:cid/account */
  function GetCustomerAccounts(db: Db, id: int): (r: Result<seq<Account>>)
    ensures r.Failure? <==> id !in db.customers
    ensures r.Failure? ==> r.error == NotFound(CouldNotFindCustomer)
    ensures r.Success? ==>
      && (forall i :: 0 <= i < |r.value| ==>
            && r.value[i].id.Some? && r.value[i].id.value in db.accounts
            && db.accounts[r.value[i].id.value].customerId == id
            && r.value[i] == AccountOf(r.value[i].id.value, db.accounts[r.value[i].id.value]))
      && (forall i, j :: 0 <= i < j < |r.value| ==> r.value[i].id != r.value[j].id)
      && (Valid(db) ==> forall k :: k in db.accounts && db.accounts[k].customerId == id ==> AccountOf(k, db.accounts[k]) in r.value)
  {
    match CustomerService.GetCustomer(db, id)
    case None => Failure(NotFound(CouldNotFindCustomer))
    case Some(_) => Success(AccountService.GetAccountsByCustomerId(db, id))
  }

  /** A created customer is found again by its id. */
  lemma CreatedCustomerReadsBack(db: Db, request: Customer)
    requires Valid(db)
    requires CreateCustomer(db, request).Success?
    ensures var (db', created) := CreateCustomer(db, request).value;
            && GetCustomer(db', db.nextCustomerId) == Success(created)
            && Valid(db')
  {
  }

  /** An update is visible to the next read. */
  lemma UpdatedCustomerReadsBack(db: Db, id: int, request: Customer)
    requires Valid(db)
    requires UpdateCustomer(db, id, request).Success?
    ensures var (db', updated) := UpdateCustomer(db, id, request).value;
            && GetCustomer(db', id) == Success(updated)
            && Valid(db')
  {
  }
}

=== FILE: customer_service.dfy ===
/** CustomerService: point lookup, insert and name update of customer rows. */
module CustomerService {
  import opened Common
  import opened Models
  import opened Database

  /** getCustomer: the stored row with that id, or null. */
  function GetCustomer(db: Db, id: int): (r: Option<Customer>)
    ensures r.Some? <==> id in db.customers
    ensures r.Some? ==> r.value == CustomerOf(id, db.customers[id])
  {
    if id in db.customers then Some(CustomerOf(id, db.customers[id])) else None
  }

  /** createCustomer: insert (first_name, last_name, NOW(), NOW()) and read
      the new row back. Both names are NOT NULL VARCHAR(255) columns. */
  function CreateCustomer(db: Db, c: Customer): (r: Result<(Db, Customer)>)
    ensures r.Success? <==> FitsVarchar(c.firstName) && FitsVarchar(c.lastName)
    ensures r.Failure? ==> r.error == DataBase(SqlFailure)
    ensures r.Success? ==>
      var (db', created) := r.value;
      && created.id == Some(db.nextCustomerId)
      && created.firstName == c.firstName && created.lastName == c.lastName
      && created.updated == created.created == Some(Now(db))
      && db.nextCustomerId in db'.customers && created == CustomerOf(db.nextCustomerId, db'.customers[db.nextCustomerId])
      && db'.customers.Keys == db.customers.Keys + {db.nextCustomerId}
      && db'.nextCustomerId == db.nextCustomerId + 1
      && db'.accounts == db.accounts && db'.transactions == db.transactions
      && db' == db.(customers := db'.customers, nextCustomerId := db.nextCustomerId + 1, clock := Now(db))
    ensures r.Success? && Valid(db) ==>
      && Valid(r.value.0)
      && |r.value.0.customers| == |db.customers| + 1
      && (forall id :: id in db.customers ==> r.value.0.customers[id] == db.customers[id])
  {
    if !FitsVarchar(c.firstName) || !FitsVarchar(c.lastName) then Failure(DataBase(SqlFailure))
    else
      var id := db.nextCustomerId;
      var now := Now(db);
      var row := CustomerRow(c.firstName.value, c.lastName.value, now, now);
      var db' := db.(customers := db.customers[id := row], nextCustomerId := id + 1, clock := now);
      assert Valid(db) ==> id !in db.customers && Valid(db') by {
        if Valid(db) {
          forall k | k in db'.customers
            ensures 1 <= k < db'.nextCustomerId && db'.customers[k].created <= db'.customers[k].updated <= db'.clock
          {
            if k != id {
              assert db'.customers[k] == db.customers[k];
            }
          }
        }
      }
      Success((db', CustomerOf(id, row)))
  }

  /** updateCustomer: `UPDATE customer SET first_name = ?, last_name = ?,
      updated = NOW() WHERE id = ?`. Zero rows affected throws; a null or
      over-long name violates its column. */
  function UpdateCustomer(db: Db, c: Customer): (r: Result<(Db, Customer)>)
    requires c.id.Some?
    ensures c.id.value !in db.customers ==> r == Failure(DataBase(CouldNotUpdateUser))
    ensures c.id.value in db.customers ==> (r.Success? <==> FitsVarchar(c.firstName) && FitsVarchar(c.lastName))
    ensures r.Failure? ==> r.error.DataBase?
    ensures r.Success? ==>
      var (db', updated) := r.value;
      var id := c.id.value;
      && id in db.customers && id in db'.customers
      && db'.customers[id] == db.customers[id].(firstName := c.firstName.value, lastName := c.lastName.value, updated := Now(db))
      && updated == CustomerOf(id, db'.customers[id])
      && CustomersChangedOnlyAt(db, db', id)
      && db'.accounts == db.accounts && db'.transactions == db.transactions
      && db' == db.(customers := db'.customers, clock := Now(db))
    ensures r.Success? && Valid(db) ==> Valid(r.value.0)
  {
    var id := c.id.value;
    if id !in db.customers then Failure(DataBase(CouldNotUpdateUser))
    else if !FitsVarchar(c.firstName) || !FitsVarchar(c.lastName) then Failure(DataBase(SqlFailure))
    else
      var now := Now(db);
      var row := db.customers[id].(firstName := c.firstName.value, lastName := c.lastName.value, updated := now);
      var db' := db.(customers := db.customers[id := row], clock := now);
      Success((db', CustomerOf(id, row)))
  }

  /** An update keeps the creation stamp and moves the version forward. */
  lemma UpdateCustomerKeepsCreated(db: Db, c: Customer)
    requires Valid(db) && c.id.Some?
    requires UpdateCustomer(db, c).Success?
    ensures var before := db.customers[c.id.value];
            var after := UpdateCustomer(db, c).value.0.customers[c.id.value];
            && after.created == before.created
            && after.updated > before.updated
  {
  }
}

=== FILE: database.dfy ===
/** The relational store behind the services, read as keyed maps and an
    append-only list. Columns are NOT NULL, so rows carry plain values; the
    services turn rows back into nullable model objects the way their
    `create...FromResultSet` helpers do. */
module Database {
  import opened Common
  import opened Models

  datatype CustomerRow = CustomerRow(firstName: string, lastName: string, updated: Stamp, created: Stamp)

  datatype AccountRow = AccountRow(customerId: int, title: string, balance: Money, updated: Stamp, created: Stamp)

  datatype TransactionRow = TransactionRow(
    id: int,
    title: string,
    amount: Money,
    senderAccountId: int,
    receiverAccountId: int,
    updated: Stamp,
    created: Stamp)

  /** The three tables, the next IDENTITY value of each, and the clock that
      stands in for `NOW()`: the last stamp handed out. */
  datatype Db = Db(
    customers: map<int, CustomerRow>,
    accounts: map<int, AccountRow>,
    transactions: seq<TransactionRow>,
    nextCustomerId: int,
    nextAccountId: int,
    nextTransactionId: int,
    clock: Stamp)

  /** The freshly created schema. */
  const Empty: Db := Db(map[], map[], [], 1, 1, 1, 0)

  /** What the primary keys and `NOW()` guarantee: every id was handed out
      by its table's IDENTITY sequence (so the next one is fresh), ids of
      the append-only transaction table increase, and no row carries a
      stamp from the future. */
  ghost predicate Valid(db: Db) {
    && 1 <= db.nextCustomerId && 1 <= db.nextAccountId && 1 <= db.nextTransactionId
    && (forall id :: id in db.customers ==>
          1 <= id < db.nextCustomerId && db.customers[id].created <= db.customers[id].updated <= db.clock)
    && (forall id :: id in db.accounts ==>
          1 <= id < db.nextAccountId && db.accounts[id].created <= db.accounts[id].updated <= db.clock)
    && (forall i :: 0 <= i < |db.transactions| ==>
          1 <= db.transactions[i].id < db.nextTransactionId && db.transactions[i].updated <= db.clock)
    && (forall i, j :: 0 <= i < j < |db.transactions| ==> db.transactions[i].id < db.transactions[j].id)
  }

  lemma EmptyIsValid()
    ensures Valid(Empty)
    ensures Empty.accounts == map[] && Empty.customers == map[] && Empty.transactions == []
  {
  }

  /** The stamp the next `NOW()` returns. It is later than every stamp
      already stored (this is the model's reading of wall-clock time; real
      timestamps can repeat within one clock tick). */
  function Now(db: Db): (t: Stamp)
    ensures Valid(db) ==> forall id :: id in db.accounts ==> db.accounts[id].updated < t
    ensures Valid(db) ==> forall id :: id in db.customers ==> db.customers[id].updated < t
  {
    db.clock + 1
  }

  function CustomerOf(id: int, row: CustomerRow): (c: Customer)
    ensures c.id == Some(id) && c.firstName == Some(row.firstName) && c.lastName == Some(row.lastName)
    ensures c.updated == Some(row.updated) && c.created == Some(row.created)
  {
    Customer(Some(id), Some(row.firstName), Some(row.lastName), Some(row.updated), Some(row.created))
  }

  function AccountOf(id: int, row: AccountRow): (a: Account)
    ensures a.id == Some(id) && a.customerId == Some(row.customerId) && a.title == Some(row.title)
    ensures a.balance == Some(row.balance) && a.updated == Some(row.updated) && a.created == Some(row.created)
  {
    Account(Some(id), Some(row.customerId), Some(row.title), Some(row.balance), Some(row.updated), Some(row.created))
  }

  function TransactionOf(row: TransactionRow): (t: Transaction)
    ensures t.id == Some(row.id) && t.title == Some(row.title) && t.amount == Some(row.amount)
    ensures t.senderAccountId == Some(row.senderAccountId) && t.receiverAccountId == Some(row.receiverAccountId)
    ensures t.updated == Some(row.updated) && t.created == Some(row.created)
  {
    Transaction(Some(row.id), Some(row.title), Some(row.amount), Some(row.senderAccountId),
                Some(row.receiverAccountId), Some(row.updated), Some(row.created))
  }

  // The columns an object would be written back as: defined when every
  // NOT NULL column has a value. They invert the three readers above.

  function CustomerRowOf(c: Customer): Option<CustomerRow> {
    if c.firstName.Some? && c.lastName.Some? && c.updated.Some? && c.created.Some? then
      Some(CustomerRow(c.firstName.value, c.lastName.value, c.updated.value, c.created.value))
    else None
  }

  function AccountRowOf(a: Account): Option<AccountRow> {
    if a.customerId.Some? && a.title.Some? && a.balance.Some? && a.updated.Some? && a.created.Some? then
      Some(AccountRow(a.customerId.value, a.title.value, a.balance.value, a.updated.value, a.created.value))
    else None
  }

  function TransactionRowOf(t: Transaction): Option<TransactionRow> {
    if && t.id.Some? && t.title.Some? && t.amount.Some? && t.senderAccountId.Some?
       && t.receiverAccountId.Some? && t.updated.Some? && t.created.Some? then
      Some(TransactionRow(t.id.value, t.title.value, t.amount.value, t.senderAccountId.value,
                          t.receiverAccountId.value, t.updated.value, t.created.value))
    else None
  }

  /** Reading a row loses nothing: the row is recovered from the object,
      and an object with every column present is the one read from its
      row. So two rows read as the same object only if they are the same. */
  lemma RowReadersAreLossless(id: int, crow: CustomerRow, arow: AccountRow, trow: TransactionRow,
                              c: Customer, a: Account, t: Transaction)
    ensures CustomerRowOf(CustomerOf(id, crow)) == Some(crow)
    ensures AccountRowOf(AccountOf(id, arow)) == Some(arow)
    ensures TransactionRowOf(TransactionOf(trow)) == Some(trow)
    ensures c.id == Some(id) && CustomerRowOf(c).Some? ==> CustomerOf(id, CustomerRowOf(c).value) == c
    ensures a.id == Some(id) && AccountRowOf(a).Some? ==> AccountOf(id, AccountRowOf(a).value) == a
    ensures TransactionRowOf(t).Some? ==> TransactionOf(TransactionRowOf(t).value) == t
  {
  }

  /** A text value fits a NOT NULL VARCHAR(255) column. */
  predicate FitsVarchar(s: Option<string>) {
    s.Some? && |s.value| <= MaxTextLength
  }

  /** db' keeps the same set of accounts as db and every row outside ids. */
  predicate AccountsChangedOnlyAt(db: Db, db': Db, ids: set<int>) {
    && db'.accounts.Keys == db.accounts.Keys
    && (forall k :: k in db.accounts && k !in ids ==> db'.accounts[k] == db.accounts[k])
  }

  /** db' keeps the same set of customers as db and every row but id's. */
  predicate CustomersChangedOnlyAt(db: Db, db': Db, id: int) {
    && db'.customers.Keys == db.customers.Keys
    && (forall k :: k in db.customers && k != id ==> db'.customers[k] == db.customers[k])
  }

  // ---------------------------------------------------------------------
  // Total money held in accounts, over the ids a Valid store can use.

  /** Sum of the balances of the accounts whose ids lie in [lo, hi). */
  function Total(accounts: map<int, AccountRow>, lo: int, hi: int): Money
    decreases hi - lo
  {
    if hi <= lo then 0
    else (if lo in accounts then accounts[lo].balance else 0) + Total(accounts, lo + 1, hi)
  }

  /** All money in the store. */
  function Holdings(db: Db): Money {
    Total(db.accounts, 1, db.nextAccountId)
  }

  /** Replacing one account's row changes the sum by the difference of the
      two balances, and leaves it alone when the id is outside the range. */
  lemma {:induction false} TotalAfterWrite(accounts: map<int, AccountRow>, id: int, row: AccountRow, lo: int, hi: int)
    requires id in accounts
    ensures lo <= id < hi ==>
      Total(accounts[id := row], lo, hi) == Total(accounts, lo, hi) - accounts[id].balance + row.balance
    ensures !(lo <= id < hi) ==> Total(accounts[id := row], lo, hi) == Total(accounts, lo, hi)
    decreases hi - lo
  {
    if lo < hi {
      TotalAfterWrite(accounts, id, row, lo + 1, hi);
    }
  }
}

=== FILE: models.dfy ===
/** The three model classes of the service (Account, Customer, Transaction)
    as they travel between controller and service: every field is a nullable
    Java reference. Equality and hashing look at the id only. */
module Models {
  import opened Common

  datatype Account = Account(
    id: Option<int>,
    customerId: Option<int>,
    title: Option<string>,
    balance: Option<Money>,
    updated: Option<Stamp>,
    created: Option<Stamp>)

  datatype Customer = Customer(
    id: Option<int>,
    firstName: Option<string>,
    lastName: Option<string>,
    updated: Option<Stamp>,
    created: Option<Stamp>)

  datatype Transaction = Transaction(
    id: Option<int>,
    title: Option<string>,
    amount: Option<Money>,
    senderAccountId: Option<int>,
    receiverAccountId: Option<int>,
    updated: Option<Stamp>,
    created: Option<Stamp>)

  /** The argument of an `equals(Object o)` call: null or an instance of one
      of the model classes. */
  datatype Obj = Null | AnAccount(account: Account) | ACustomer(customer: Customer) | ATransaction(transaction: Transaction)

  // ---------------------------------------------------------------------
  // Setters with a dead rounding step

  /** Account.setBalance. The scale-2 rounding is assigned and then
      immediately overwritten by the argument itself, so only the argument
      survives; a null argument leaves the balance null. */
  function SetBalance(a: Account, balance: Option<Money>): (r: Account)
    ensures r.balance == balance
    ensures r.(balance := a.balance) == a
    ensures AccountEquals(r, AnAccount(a))
  {
    a.(balance := balance)
  }

  /** Transaction.setAmount, with the same dead rounding as SetBalance. */
  function SetAmount(t: Transaction, amount: Option<Money>): (r: Transaction)
    ensures r.amount == amount
    ensures r.(amount := t.amount) == t
    ensures TransactionEquals(r, ATransaction(t))
  {
    t.(amount := amount)
  }

  /** The two-argument Customer constructor. */
  function NewCustomer(firstName: Option<string>, lastName: Option<string>): (c: Customer)
    ensures c.firstName == firstName && c.lastName == lastName
    ensures c.id == None && c.updated == None && c.created == None
  {
    Customer(None, firstName, lastName, None, None)
  }

  // ---------------------------------------------------------------------
  // equals: same class and Objects.equals on the ids. The `this == o`
  // shortcut is subsumed: the same object has the same id.

  predicate AccountEquals(a: Account, o: Obj) {
    o.AnAccount? && o.account.id == a.id
  }

  predicate CustomerEquals(c: Customer, o: Obj) {
    o.ACustomer? && o.customer.id == c.id
  }

  predicate TransactionEquals(t: Transaction, o: Obj) {
    o.ATransaction? && o.transaction.id == t.id
  }

  // ---------------------------------------------------------------------
  // hashCode: Objects.hash(id) == 31 * 1 + (id == null ? 0 : Long.hashCode(id)),
  // computed in 32-bit two's-complement arithmetic.

  const TwoTo32: int := 0x1_0000_0000
  const TwoTo64: int := 0x1_0000_0000_0000_0000

  /** The Java `int` with the same low 32 bits as x. */
  function ToInt32(x: int): (r: int)
    ensures -0x8000_0000 <= r < 0x8000_0000
    ensures (x - r) % TwoTo32 == 0
  {
    var m := x % TwoTo32;
    if m < 0x8000_0000 then m else m - TwoTo32
  }

  /** Bitwise exclusive or of two non-negative integers. */
  function Xor(a: nat, b: nat): nat
    decreases a + b
  {
    if a == 0 && b == 0 then 0
    else (if a % 2 == b % 2 then 0 else 1) + 2 * Xor(a / 2, b / 2)
  }

  lemma {:induction false} XorZero(a: nat)
    ensures Xor(a, 0) == a
    decreases a
  {
    if a != 0 {
      XorZero(a / 2);
    }
  }

  lemma {:induction false} XorSelf(a: nat)
    ensures Xor(a, a) == 0
    decreases a
  {
    if a != 0 {
      XorSelf(a / 2);
    }
  }

  /** Long.hashCode(v) == (int)(v ^ (v >>> 32)): the low word XOR the high
      word of v's 64-bit two's-complement form, read as a Java int. */
  function LongHash(v: int): (h: int)
    ensures -0x8000_0000 <= h < 0x8000_0000
  {
    var u := v % TwoTo64;
    ToInt32(Xor(u % TwoTo32, u / TwoTo32))
  }

  function IdHash(id: Option<int>): (h: int)
    ensures -0x8000_0000 <= h < 0x8000_0000
  {
    match id
    case None => 31
    case Some(v) => ToInt32(31 + LongHash(v))
  }

  function AccountHash(a: Account): int { IdHash(a.id) }

  function CustomerHash(c: Customer): int { IdHash(c.id) }

  function TransactionHash(t: Transaction): int { IdHash(t.id) }

  // ---------------------------------------------------------------------
  // Properties of equality and hashing

  /** Two accounts are equal exactly when their ids are, whatever their
      balances, titles or timestamps. */
  lemma AccountEqualityIsById(a: Account, b: Account)
    ensures AccountEquals(a, AnAccount(b)) <==> a.id == b.id
    ensures AccountEquals(a, AnAccount(b)) ==> AccountHash(a) == AccountHash(b)
    ensures !AccountEquals(a, Null)
  {
  }

  lemma CustomerEqualityIsById(c: Customer, d: Customer)
    ensures CustomerEquals(c, ACustomer(d)) <==> c.id == d.id
    ensures CustomerEquals(c, ACustomer(d)) ==> CustomerHash(c) == CustomerHash(d)
  {
  }

  /** A customer equals itself and never equals null or an object of
      another class. */
  lemma CustomerEqualsReflexiveAndClassStrict(c: Customer, a: Account, t: Transaction)
    ensures CustomerEquals(c, ACustomer(c))
    ensures !CustomerEquals(c, Null)
    ensures !CustomerEquals(c, AnAccount(a)) && !CustomerEquals(c, ATransaction(t))
  {
  }

  lemma TransactionEqualityIsById(t: Transaction, u: Transaction)
    ensures TransactionEquals(t, ATransaction(u)) <==> t.id == u.id
    ensures TransactionEquals(t, ATransaction(u)) ==> TransactionHash(t) == TransactionHash(u)
    ensures !TransactionEquals(t, Null)
  {
  }

  /** Customers built by the two-name constructor all have a null id, so
      any two of them are equal (`Objects.equals(null, null)`), whatever
      their names, and they all hash to 31. */
  lemma NewCustomersAreEqual(f: Option<string>, l: Option<string>, g: Option<string>, m: Option<string>)
    ensures CustomerEquals(NewCustomer(f, l), ACustomer(NewCustomer(g, m)))
    ensures CustomerHash(NewCustomer(f, l)) == CustomerHash(NewCustomer(g, m)) == 31
  {
  }

  /** Known values of Objects.hash on a Long id: null hashes to 31, a
      non-negative id below 2^31 - 32 to 31 + id, and -1 (all 64 bits set, so
      the two words cancel) to 31 as well. */
  lemma IdHashValues(v: int)
    requires 0 <= v < 0x7FFF_FFE0
    ensures IdHash(None) == 31
    ensures IdHash(Some(v)) == 31 + v
    ensures IdHash(Some(-1)) == 31
  {
    SmallLongHash(v);
    assert (31 + v) % TwoTo32 == 31 + v;
    MinusOneLongHash();
    assert 31 % TwoTo32 == 31;
  }

  lemma SmallLongHash(v: int)
    requires 0 <= v < 0x8000_0000
    ensures LongHash(v) == v
  {
    assert v % TwoTo64 == v;
    assert v % TwoTo32 == v;
    assert v / TwoTo32 == 0;
    XorZero(v);
  }

  lemma MinusOneLongHash()
    ensures LongHash(-1) == 0
  {
    var u := -1 % TwoTo64;
    assert u == TwoTo64 - 1;
    assert u % TwoTo32 == 0xFFFF_FFFF by {
      assert u == 0xFFFF_FFFF * TwoTo32 + 0xFFFF_FFFF;
    }
    assert u / TwoTo32 == 0xFFFF_FFFF by {
      assert u == 0xFFFF_FFFF * TwoTo32 + 0xFFFF_FFFF;
    }
    XorSelf(0xFFFF_FFFF);
  }
}

=== FILE: transaction_controller.dfy ===
/** TransactionController: reading transfers and the request path of a new
    transfer (validate, look up receiver then sender, check the balance,
    compute both new balances, commit). */
module TransactionController {
  import opened Common
  import opened Models
  import opened Validators
  import opened Database
  import AccountService
  import TransactionService

  /** GET /transaction/:tid */
  function GetTransaction(db: Db, id: int): (r: Result<Transaction>)
    ensures r.Failure? <==> forall i :: 0 <= i < |db.transactions| ==> db.transactions[i].id != id
    ensures r.Failure? ==> r.error == NotFound(CouldNotFindTransaction)
    ensures r.Success? ==> r.value.id == Some(id) && exists row :: row in db.transactions && r.value == TransactionOf(row)
  {
    match TransactionService.GetTransaction(db, id)
    case None => Failure(NotFound(CouldNotFindTransaction))
    case Some(t) => Success(t)
  }

  /** The two account snapshots handed to the commit, already carrying
      their new balances and still carrying the versions read. */
  datatype Transfer = Transfer(sender: Account, receiver: Account)

  /** The stored balance of an account the store holds. */
  function BalanceOf(db: Db, id: int): Money
    requires id in db.accounts
  {
    db.accounts[id].balance
  }

  /** Everything createTransaction does before it calls the service:
      validation, the receiver's lookup, the sender's lookup, the strict
      `amount > balance` check, and the new balances. The amount's sign is
      not checked. */
  function Prepare(db: Db, request: Transaction): (r: Result<Transfer>)
    ensures ValidateTransaction(request).Fail? ==> r == Failure(ValidateTransaction(request).error)
    ensures ValidateTransaction(request).Pass? && request.receiverAccountId.value !in db.accounts ==>
      r == Failure(InvalidRequestData(UnknownReceiver))
    ensures (&& ValidateTransaction(request).Pass?
             && request.receiverAccountId.value in db.accounts
             && request.senderAccountId.value !in db.accounts)
            ==> r == Failure(InvalidRequestData(UnknownSender))
    ensures (&& ValidateTransaction(request).Pass?
             && request.receiverAccountId.value in db.accounts
             && request.senderAccountId.value in db.accounts
             && request.amount.value > BalanceOf(db, request.senderAccountId.value))
            ==> r == Failure(InvalidRequestData(InsufficientBalance))
    ensures r.Success? <==>
      && ValidateTransaction(request).Pass?
      && request.receiverAccountId.value in db.accounts
      && request.senderAccountId.value in db.accounts
      && request.amount.value <= BalanceOf(db, request.senderAccountId.value)
    ensures r.Success? ==>
      var s := request.senderAccountId.value;
      var v := request.receiverAccountId.value;
      var amount := request.amount.value;
      && r.value.sender == AccountOf(s, db.accounts[s].(balance := BalanceOf(db, s) - amount))
      && r.value.receiver == AccountOf(v, db.accounts[v].(balance := BalanceOf(db, v) + amount))
  {
    match ValidateTransaction(request)
    case Fail(e) => Failure(e)
    case Pass =>
      match AccountService.GetAccount(db, request.receiverAccountId.value)
      case None => Failure(InvalidRequestData(UnknownReceiver))
      case Some(receiver) =>
        match AccountService.GetAccount(db, request.senderAccountId.value)
        case None => Failure(InvalidRequestData(UnknownSender))
        case Some(sender) =>
          var amount := request.amount.value;
          if amount > sender.balance.value then Failure(InvalidRequestData(InsufficientBalance))
          else
            var receiver' := SetBalance(receiver, Some(receiver.balance.value + amount));
            var sender' := SetBalance(sender, Some(sender.balance.value - amount));
            Success(Transfer(sender', receiver'))
  }

  /** POST /transaction */
  function CreateTransaction(db: Db, request: Transaction): (r: Result<(Db, Transaction)>)
    ensures Prepare(db, request).Failure? ==> r == Failure(Prepare(db, request).error)
    ensures r.Success? <==> Prepare(db, request).Success?
    ensures r.Success? ==>
      var (db', record) := r.value;
      var s := request.senderAccountId.value;
      var v := request.receiverAccountId.value;
      var amount := request.amount.value;
      && s != v && s in db.accounts && v in db.accounts
      && s in db'.accounts && v in db'.accounts
      && db'.accounts[s] == db.accounts[s].(balance := BalanceOf(db, s) - amount, updated := Now(db))
      && db'.accounts[v] == db.accounts[v].(balance := BalanceOf(db, v) + amount, updated := Now(db))
      && BalanceOf(db', s) + BalanceOf(db', v) == BalanceOf(db, s) + BalanceOf(db, v)
      && BalanceOf(db', s) >= 0
      && AccountsChangedOnlyAt(db, db', {s, v})
      && |db'.transactions| == |db.transactions| + 1
      && db'.transactions[..|db.transactions|] == db.transactions
      && record.title == request.title && record.amount == request.amount
      && record.senderAccountId == request.senderAccountId && record.receiverAccountId == request.receiverAccountId
      && record == TransactionOf(db'.transactions[|db.transactions|])
      && db'.customers == db.customers
      && db' == db.(accounts := db'.accounts, transactions := db'.transactions,
                    nextTransactionId := db.nextTransactionId + 1, clock := Now(db))
  {
    var transfer :- Prepare(db, request);
    TransactionService.CreateTransaction(db, transfer.sender, transfer.receiver, request)
  }
}

=== FILE: transaction_service.dfy ===
/** TransactionService: reads of the transfer table and the atomic commit of
    a transfer (one insert and two version-guarded balance writes in a
    single database transaction). */
module TransactionService {
  import opened Common
  import opened Models
  import opened Database

  // ---------------------------------------------------------------------
  // Reads

  /** getTransactions: every stored record, in table order. */
  function GetTransactions(db: Db): (r: seq<Transaction>)
    ensures |r| == |db.transactions|
    ensures forall i :: 0 <= i < |r| ==> r[i] == TransactionOf(db.transactions[i])
  {
    Records(db.transactions)
  }

  /** The account is the sender or the receiver of the record. */
  predicate Involves(row: TransactionRow, account: int) {
    row.senderAccountId == account || row.receiverAccountId == account
  }

  /** The rows involving an account, in table order. */
  function RowsInvolving(rows: seq<TransactionRow>, account: int): (r: seq<TransactionRow>)
    ensures forall x :: x in r <==> x in rows && Involves(x, account)
    ensures |r| <= |rows|
  {
    if rows == [] then []
    else (if Involves(rows[0], account) then [rows[0]] else []) + RowsInvolving(rows[1..], account)
  }

  /** Selecting rows keeps their order, so increasing ids stay increasing. */
  lemma {:induction false} RowsInvolvingKeepsOrder(rows: seq<TransactionRow>, account: int)
    ensures IdsIncrease(rows) ==> IdsIncrease(RowsInvolving(rows, account))
  {
    if rows != [] && IdsIncrease(rows) {
      var rest := RowsInvolving(rows[1..], account);
      assert IdsIncrease(rows[1..]);
      RowsInvolvingKeepsOrder(rows[1..], account);
      forall x | x in rest ensures rows[0].id < x.id {
        var k :| 0 <= k < |rows[1..]| && rows[1..][k] == x;
        assert rows[k + 1] == x;
      }
    }
  }

  /** Ids strictly increase along the rows: table order is id order, and no
      id occurs twice. */
  predicate IdsIncrease(rows: seq<TransactionRow>) {
    forall i, j :: 0 <= i < j < |rows| ==> rows[i].id < rows[j].id
  }

  /** The model objects read from rows, one per row, in row order. */
  function Records(rows: seq<TransactionRow>): (r: seq<Transaction>)
    ensures |r| == |rows|
    ensures forall i :: 0 <= i < |r| ==> r[i] == TransactionOf(rows[i]) && r[i].id == Some(rows[i].id)
    ensures IdsIncrease(rows) ==> forall i, j :: 0 <= i < j < |r| ==> r[i].id.value < r[j].id.value
  {
    seq(|rows|, i requires 0 <= i < |rows| => TransactionOf(rows[i]))
  }

  /** getTransactionsByAccountId:
      `WHERE sender_account_id = ? OR receiver_account_id = ?`. */
  function GetTransactionsByAccountId(db: Db, account: int): (r: seq<Transaction>)
    ensures forall row :: row in db.transactions ==> (TransactionOf(row) in r <==> Involves(row, account))
    ensures forall i :: 0 <= i < |r| ==>
      && r[i].id.Some?
      && (r[i].senderAccountId == Some(account) || r[i].receiverAccountId == Some(account))
      && exists row :: row in db.transactions && r[i] == TransactionOf(row)
    ensures Valid(db) ==> forall i, j :: 0 <= i < j < |r| ==> r[i].id.value < r[j].id.value
  {
    InvolvingRecords(db.transactions, account);
    RowsInvolvingKeepsOrder(db.transactions, account);
    Records(RowsInvolving(db.transactions, account))
  }

  /** The records of the rows involving an account are exactly the records
      of those rows of the table that involve it, in table order. */
  lemma InvolvingRecords(rows: seq<TransactionRow>, account: int)
    ensures var r := Records(RowsInvolving(rows, account));
      && (forall row :: row in rows ==> (TransactionOf(row) in r <==> Involves(row, account)))
      && (forall i :: 0 <= i < |r| ==>
            && r[i].id.Some?
            && (r[i].senderAccountId == Some(account) || r[i].receiverAccountId == Some(account))
            && exists row :: row in rows && r[i] == TransactionOf(row))
  {
    var involving := RowsInvolving(rows, account);
    var r := Records(involving);
    forall i | 0 <= i < |r|
      ensures exists row :: row in rows && r[i] == TransactionOf(row)
    {
      assert involving[i] in involving;
    }
    forall row | row in rows && TransactionOf(row) in r
      ensures Involves(row, account)
    {
      var k :| 0 <= k < |r| && r[k] == TransactionOf(row);
      assert involving[k] == row;
    }
    forall row | row in rows && Involves(row, account)
      ensures TransactionOf(row) in r
    {
      var k :| 0 <= k < |involving| && involving[k] == row;
      assert r[k] == TransactionOf(row);
    }
  }

  /** The first row with the given id (the primary key makes it the only one). */
  function FindRow(rows: seq<TransactionRow>, id: int): (r: Option<TransactionRow>)
    ensures r.Some? ==> r.value in rows && r.value.id == id
    ensures r.None? <==> forall i :: 0 <= i < |rows| ==> rows[i].id != id
  {
    if rows == [] then None
    else if rows[0].id == id then Some(rows[0])
    else FindRow(rows[1..], id)
  }

  /** getTransaction: the stored record with that id, or null. */
  function GetTransaction(db: Db, id: int): (r: Option<Transaction>)
    ensures r.None? <==> forall i :: 0 <= i < |db.transactions| ==> db.transactions[i].id != id
    ensures r.Some? ==> r.value.id == Some(id) && exists row :: row in db.transactions && r.value == TransactionOf(row)
  {
    match FindRow(db.transactions, id)
    case None => None
    case Some(row) => Some(TransactionOf(row))
  }

  /** With unique ids, the lookup returns exactly the stored record. */
  lemma GetTransactionFindsStoredRecord(db: Db, i: int)
    requires Valid(db) && 0 <= i < |db.transactions|
    ensures GetTransaction(db, db.transactions[i].id) == Some(TransactionOf(db.transactions[i]))
  {
    var id := db.transactions[i].id;
    var found := FindRow(db.transactions, id);
    var j :| 0 <= j < |db.transactions| && db.transactions[j] == found.value;
    assert j == i;
  }

  // ---------------------------------------------------------------------
  // The commit

  /** The guarded statement `UPDATE account SET balance = ?, updated = NOW()
      WHERE id = ? AND updated = ?` finds its row: the snapshot's version is
      still the stored one. A null version never matches (`updated = NULL`). */
  predicate Matches(accounts: map<int, AccountRow>, snapshot: Account)
    requires snapshot.id.Some?
  {
    snapshot.id.value in accounts && snapshot.updated == Some(accounts[snapshot.id.value].updated)
  }

  /** What the guarded statement does: writes the row, affects zero rows, or
      is refused by the NOT NULL balance column. */
  datatype Write = Written(accounts: map<int, AccountRow>) | NoRows | Rejected

  function GuardedWrite(accounts: map<int, AccountRow>, snapshot: Account, now: Stamp): (w: Write)
    requires snapshot.id.Some?
    ensures w.NoRows? <==> !Matches(accounts, snapshot)
    ensures w.Rejected? <==> Matches(accounts, snapshot) && snapshot.balance.None?
    ensures w.Written? ==>
      var id := snapshot.id.value;
      && id in accounts && id in w.accounts
      && w.accounts[id] == accounts[id].(balance := snapshot.balance.value, updated := now)
      && w.accounts.Keys == accounts.Keys
      && forall k :: k in accounts && k != id ==> w.accounts[k] == accounts[k]
  {
    var id := snapshot.id.value;
    if !Matches(accounts, snapshot) then NoRows
    else if snapshot.balance.None? then Rejected
    else Written(accounts[id := accounts[id].(balance := snapshot.balance.value, updated := now)])
  }

  /** The insert of the record satisfies its columns: title NOT NULL
      VARCHAR(255), amount NOT NULL, and both account ids are foreign keys. */
  predicate Insertable(db: Db, t: Transaction)
    requires t.senderAccountId.Some? && t.receiverAccountId.Some?
  {
    && FitsVarchar(t.title)
    && t.amount.Some?
    && t.senderAccountId.value in db.accounts
    && t.receiverAccountId.value in db.accounts
  }

  /** The row the insert appends. */
  function NewRow(db: Db, t: Transaction): TransactionRow
    requires t.senderAccountId.Some? && t.receiverAccountId.Some?
    requires Insertable(db, t)
  {
    TransactionRow(db.nextTransactionId, t.title.value, t.amount.value,
                   t.senderAccountId.value, t.receiverAccountId.value, Now(db), Now(db))
  }

  /** createTransaction: insert the record, then write the sender's and the
      receiver's new balances, each guarded by its snapshot's `updated`
      version, all inside one database transaction with auto-commit off.
      Any step that fails throws before `commit()`, and closing the
      connection discards the insert and any write already made: a failure
      carries no store, so the caller keeps the one it had. A zero-row
      guarded write is thrown as DataConflictException and caught again
      as a DataBaseException. All `NOW()` calls of the database
      transaction return the same stamp. */
  function CreateTransaction(db: Db, sender: Account, receiver: Account, t: Transaction): (r: Result<(Db, Transaction)>)
    requires sender.id.Some? && receiver.id.Some?
    requires t.senderAccountId.Some? && t.receiverAccountId.Some?
    ensures r.Failure? ==> r.error.DataBase?
    ensures !Insertable(db, t) ==> r == Failure(DataBase(SqlFailure))
    ensures Insertable(db, t) && !Matches(db.accounts, sender) ==> r == Failure(DataBase(CouldNotUpdateSenderAccount))
    ensures (&& sender.id != receiver.id && Insertable(db, t)
             && Matches(db.accounts, sender) && sender.balance.Some?
             && !Matches(db.accounts, receiver))
            ==> r == Failure(DataBase(CouldNotUpdateReceiverAccount))
    ensures sender.id != receiver.id ==>
      (r.Success? <==>
        && Insertable(db, t)
        && Matches(db.accounts, sender) && sender.balance.Some?
        && Matches(db.accounts, receiver) && receiver.balance.Some?)
    ensures r.Success? ==>
      var (db', record) := r.value;
      && Insertable(db, t)
      && db'.transactions == db.transactions + [NewRow(db, t)]
      && record == TransactionOf(NewRow(db, t))
      && db'.nextTransactionId == db.nextTransactionId + 1
      && db'.clock == Now(db)
      && AccountsChangedOnlyAt(db, db', {sender.id.value, receiver.id.value})
      && db'.customers == db.customers
      && db'.nextAccountId == db.nextAccountId && db'.nextCustomerId == db.nextCustomerId
      && db' == db.(accounts := db'.accounts, transactions := db'.transactions,
                    nextTransactionId := db.nextTransactionId + 1, clock := Now(db))
    ensures r.Success? && sender.id != receiver.id ==>
      var (db', _) := r.value;
      && db'.accounts[sender.id.value] == db.accounts[sender.id.value].(balance := sender.balance.value, updated := Now(db))
      && db'.accounts[receiver.id.value] == db.accounts[receiver.id.value].(balance := receiver.balance.value, updated := Now(db))
  {
    if !Insertable(db, t) then Failure(DataBase(SqlFailure))
    else
      var now := Now(db);
      var row := NewRow(db, t);
      match GuardedWrite(db.accounts, sender, now)
      case NoRows => Failure(DataBase(CouldNotUpdateSenderAccount))
      case Rejected => Failure(DataBase(SqlFailure))
      case Written(afterSender) =>
        match GuardedWrite(afterSender, receiver, now)
        case NoRows => Failure(DataBase(CouldNotUpdateReceiverAccount))
        case Rejected => Failure(DataBase(SqlFailure))
        case Written(afterBoth) =>
          var db' := db.(accounts := afterBoth, transactions := db.transactions + [row],
                         nextTransactionId := db.nextTransactionId + 1, clock := now);
          Success((db', TransactionOf(row)))
  }

  /** A commit keeps the store invariant, and the read-back of the generated
      key that follows `commit()` finds exactly the record returned. */
  lemma CommitKeepsStoreValid(db: Db, sender: Account, receiver: Account, t: Transaction)
    requires Valid(db)
    requires sender.id.Some? && receiver.id.Some?
    requires t.senderAccountId.Some? && t.receiverAccountId.Some?
    requires CreateTransaction(db, sender, receiver, t).Success?
    ensures var (db', record) := CreateTransaction(db, sender, receiver, t).value;
            && Valid(db')
            && |db'.transactions| == |db.transactions| + 1
            && GetTransaction(db', db.nextTransactionId) == Some(record)
  {
    var (db', record) := CreateTransaction(db, sender, receiver, t).value;
    assert db'.transactions[|db.transactions|] == NewRow(db, t);
    forall id | id in db'.accounts
      ensures 1 <= id < db'.nextAccountId && db'.accounts[id].created <= db'.accounts[id].updated <= db'.clock
    {
      assert id in db.accounts;
    }
    assert Valid(db');
    GetTransactionFindsStoredRecord(db', |db.transactions|);
  }

  /** The transfer history is append-only: after a commit, listing every
      record gives the earlier listing followed by the new record. */
  lemma CommitAppendsToHistory(db: Db, sender: Account, receiver: Account, t: Transaction)
    requires sender.id.Some? && receiver.id.Some?
    requires t.senderAccountId.Some? && t.receiverAccountId.Some?
    requires CreateTransaction(db, sender, receiver, t).Success?
    ensures var (db', record) := CreateTransaction(db, sender, receiver, t).value;
            GetTransactions(db') == GetTransactions(db) + [record]
  {
  }

  /** Listing and lookup agree: in a valid store every listed record is
      found again by its id. */
  lemma ListingAgreesWithLookup(db: Db, i: int)
    requires Valid(db) && 0 <= i < |GetTransactions(db)|
    ensures GetTransactions(db)[i].id.Some?
    ensures GetTransaction(db, GetTransactions(db)[i].id.value) == Some(GetTransactions(db)[i])
  {
    GetTransactionFindsStoredRecord(db, i);
  }
}

=== FILE: transfer_properties.dfy ===
/** Properties of the transfer engine that relate several calls:
    conservation of money, non-negativity and where it ends, detection of
    stale snapshots by the version guard, and the literal scenarios. */
module TransferProperties {
  import opened Common
  import opened Models
  import opened Database
  import TransactionService
  import AccountService
  import AccountController
  import opened Validators
  import opened TransactionController

  /** The request names the account as sender or receiver: the counterpart,
      on a request with nullable ids, of `TransactionService.Involves` on a
      stored row. */
  predicate Touches(t: Transaction, id: Option<int>) {
    t.senderAccountId == id || t.receiverAccountId == id
  }

  /** Two snapshots name the same row at the same version. */
  predicate SameVersion(a: Account, b: Account) {
    a.id == b.id && a.updated == b.updated
  }

  // ---------------------------------------------------------------------
  // Money

  /** A transfer moves money between two accounts of the store and creates
      or destroys none: the sum over all accounts is unchanged, and the
      store invariant still holds. */
  lemma TransferConservesHoldings(db: Db, request: Transaction)
    requires Valid(db)
    requires CreateTransaction(db, request).Success?
    ensures Holdings(CreateTransaction(db, request).value.0) == Holdings(db)
    ensures Valid(CreateTransaction(db, request).value.0)
  {
    var db' := CreateTransaction(db, request).value.0;
    var s := request.senderAccountId.value;
    var v := request.receiverAccountId.value;
    var amount := request.amount.value;
    var afterSender := db.accounts[s := db'.accounts[s]];
    assert db'.accounts == afterSender[v := db'.accounts[v]];
    TotalAfterWrite(db.accounts, s, db'.accounts[s], 1, db.nextAccountId);
    TotalAfterWrite(afterSender, v, db'.accounts[v], 1, db.nextAccountId);
    var transfer := Prepare(db, request).value;
    TransactionService.CommitKeepsStoreValid(db, transfer.sender, transfer.receiver, request);
  }

  /** With no negative balance in the store and a non-negative amount, a
      transfer leaves no negative balance. (The sender alone never goes
      negative, whatever the amount: the strict `amount > balance` check
      rejects exactly the amounts that would overdraw it.) */
  lemma TransferKeepsBalancesNonNegative(db: Db, request: Transaction)
    requires CreateTransaction(db, request).Success?
    requires forall id :: id in db.accounts ==> db.accounts[id].balance >= 0
    requires request.amount.Some? && request.amount.value >= 0
    ensures var db' := CreateTransaction(db, request).value.0;
            forall id :: id in db'.accounts ==> db'.accounts[id].balance >= 0
  {
  }

  /** A store with one customer and two accounts holding 300.00 each. */
  const TwoAccounts: Db := Db(
    map[1 := CustomerRow("Ada", "Lovelace", 1, 1)],
    map[1 := AccountRow(1, "checking", 30000, 1, 1), 2 := AccountRow(1, "savings", 30000, 1, 1)],
    [], 2, 3, 1, 1)

  function TransferRequest(title: string, amount: Money, sender: int, receiver: int): Transaction {
    Transaction(None, Some(title), Some(amount), Some(sender), Some(receiver), None, None)
  }

  /** No check looks at the amount's sign, so a negative amount is a
      transfer in reverse that the receiver cannot refuse: it passes the
      `amount > balance` check against the sender and drives the
      receiver's balance below zero. */
  lemma NegativeAmountOverdrawsReceiver()
    ensures Valid(TwoAccounts)
    ensures var r := CreateTransaction(TwoAccounts, TransferRequest("refund", -50000, 1, 2));
            && r.Success?
            && BalanceOf(r.value.0, 1) == 80000
            && BalanceOf(r.value.0, 2) == -20000
  {
    var request := TransferRequest("refund", -50000, 1, 2);
    assert ValidateTransaction(request).Pass? by {
      assert |"refund"| == 6;
    }
  }

  /** The committed record is found by its id and is listed for both the
      sender's and the receiver's account. */
  lemma TransferListedForBothAccounts(db: Db, request: Transaction)
    requires Valid(db)
    requires CreateTransaction(db, request).Success?
    ensures var (db', record) := CreateTransaction(db, request).value;
            && GetTransaction(db', db.nextTransactionId) == Success(record)
            && record in AccountController.GetAccountTransactions(db', request.senderAccountId.value).value
            && record in AccountController.GetAccountTransactions(db', request.receiverAccountId.value).value
  {
    var (db', record) := CreateTransaction(db, request).value;
    var transfer := Prepare(db, request).value;
    TransactionService.CommitKeepsStoreValid(db, transfer.sender, transfer.receiver, request);
    assert db'.transactions[|db.transactions|] in db'.transactions;
  }

  // ---------------------------------------------------------------------
  // The version guard

  /** Once a commit succeeds, neither of its snapshots can be committed
      again: both rows now carry a version newer than any the store held
      before, so a later commit whose sender snapshot has either old
      version fails (on the guard, or earlier if its record cannot be
      inserted) and changes nothing. */
  lemma StaleSnapshotConflicts(db: Db, sender: Account, receiver: Account, t: Transaction,
                               sender2: Account, receiver2: Account, t2: Transaction)
    requires Valid(db)
    requires sender.id.Some? && receiver.id.Some? && sender.id != receiver.id
    requires t.senderAccountId.Some? && t.receiverAccountId.Some?
    requires TransactionService.CreateTransaction(db, sender, receiver, t).Success?
    requires sender2.id.Some? && receiver2.id.Some?
    requires t2.senderAccountId.Some? && t2.receiverAccountId.Some?
    requires SameVersion(sender2, sender) || SameVersion(sender2, receiver)
    ensures var db' := TransactionService.CreateTransaction(db, sender, receiver, t).value.0;
            var r := TransactionService.CreateTransaction(db', sender2, receiver2, t2);
            && r.Failure? && r.error.DataBase?
            && (TransactionService.Insertable(db', t2) ==> r == Failure(DataBase(CouldNotUpdateSenderAccount)))
  {
    var db' := TransactionService.CreateTransaction(db, sender, receiver, t).value.0;
    assert !TransactionService.Matches(db'.accounts, sender2);
  }

  /** Two requests prepared against the same store and committed one after
      the other, as two interleaved requests would be: if they share an
      account, the second commit hits the guard on whichever of its
      accounts the first one wrote, and the store keeps exactly the first
      transfer's effect. */
  lemma InterleavedTransfersSharingAnAccount(db: Db, first: Transaction, second: Transaction)
    requires Valid(db)
    requires Prepare(db, first).Success? && Prepare(db, second).Success?
    requires Touches(second, first.senderAccountId) || Touches(second, first.receiverAccountId)
    ensures CreateTransaction(db, first).Success?
    ensures var db1 := CreateTransaction(db, first).value.0;
            var late := Prepare(db, second).value;
            var r := TransactionService.CreateTransaction(db1, late.sender, late.receiver, second);
            && (r == Failure(DataBase(CouldNotUpdateSenderAccount)) || r == Failure(DataBase(CouldNotUpdateReceiverAccount)))
            && BalanceOf(db1, first.senderAccountId.value) == BalanceOf(db, first.senderAccountId.value) - first.amount.value
  {
    var db1 := CreateTransaction(db, first).value.0;
    var late := Prepare(db, second).value;
    var s1, v1 := first.senderAccountId.value, first.receiverAccountId.value;
    var s2, v2 := second.senderAccountId.value, second.receiverAccountId.value;
    assert db1.accounts[s1].updated == Now(db) && db1.accounts[v1].updated == Now(db);
    assert late.sender.updated == Some(db.accounts[s2].updated);
    assert late.receiver.updated == Some(db.accounts[v2].updated);
    assert TransactionService.Insertable(db1, second) by {
      assert ValidText(second.title);
    }
    if s2 == s1 || s2 == v1 {
      assert !TransactionService.Matches(db1.accounts, late.sender);
    } else {
      assert db1.accounts[s2] == db.accounts[s2];
      assert TransactionService.Matches(db1.accounts, late.sender);
      assert !TransactionService.Matches(db1.accounts, late.receiver);
    }
  }

  /** A title edit bumps the same `updated` column the transfer guard reads,
      so it invalidates every transfer prepared before it on that account. */
  lemma TitleEditInvalidatesPreparedTransfer(db: Db, request: Transaction, edit: Account)
    requires Valid(db)
    requires Prepare(db, request).Success?
    requires edit.id.Some? && AccountService.UpdateAccount(db, edit).Success?
    requires Touches(request, edit.id)
    ensures var db' := AccountService.UpdateAccount(db, edit).value.0;
            var transfer := Prepare(db, request).value;
            TransactionService.CreateTransaction(db', transfer.sender, transfer.receiver, request)
              == Failure(DataBase(if edit.id == request.senderAccountId then CouldNotUpdateSenderAccount
                                  else CouldNotUpdateReceiverAccount))
  {
    var db' := AccountService.UpdateAccount(db, edit).value.0;
    var transfer := Prepare(db, request).value;
    var s, v := request.senderAccountId.value, request.receiverAccountId.value;
    assert TransactionService.Insertable(db', request) by {
      assert ValidText(request.title);
    }
    if edit.id.value == s {
      assert !TransactionService.Matches(db'.accounts, transfer.sender);
    } else {
      assert db'.accounts[s] == db.accounts[s];
      assert TransactionService.Matches(db'.accounts, transfer.sender);
      assert !TransactionService.Matches(db'.accounts, transfer.receiver);
    }
  }

  // ---------------------------------------------------------------------
  // Scenarios

  /** Rent of 100.00 from account 1 to account 2 leaves 200.00 and 400.00
      and one record; a second transfer of 250.00 from account 1 is then
      refused for insufficient balance. */
  lemma RentScenario()
    ensures var r1 := CreateTransaction(TwoAccounts, TransferRequest("rent", 10000, 1, 2));
            && r1.Success?
            && BalanceOf(r1.value.0, 1) == 20000 && BalanceOf(r1.value.0, 2) == 40000
            && |r1.value.0.transactions| == 1
            && CreateTransaction(r1.value.0, TransferRequest("rent2", 25000, 1, 2))
                 == Failure(InvalidRequestData(InsufficientBalance))
  {
    var request := TransferRequest("rent", 10000, 1, 2);
    assert ValidateTransaction(request).Pass? by {
      assert |"rent"| == 4;
    }
    var db1 := CreateTransaction(TwoAccounts, request).value.0;
    var second := TransferRequest("rent2", 25000, 1, 2);
    assert ValidateTransaction(second).Pass? by {
      assert |"rent2"| == 5;
    }
    assert Prepare(db1, second) == Failure(InvalidRequestData(InsufficientBalance));
  }

  /** A transfer from an account to itself is refused before any lookup. */
  lemma SameAccountScenario()
    ensures CreateTransaction(TwoAccounts, TransferRequest("x", 1000, 1, 1))
              == Failure(InvalidRequestData(SameAccount))
  {
    assert |"x"| == 1;
  }
}

=== FILE: validators.dfy ===
/** The hand-written request validators. Each runs its checks in a fixed
    order and throws InvalidRequestData for the first one that fails; none
    of them changes the object it inspects. */
module Validators {
  import opened Common
  import opened Models

  /** A title or name the validators accept: not null, not empty
      (`isNullOrEmpty`) and at most 255 characters. */
  predicate ValidText(s: Option<string>) {
    s.Some? && 1 <= |s.value| <= MaxTextLength
  }

  /** The two checks made on one text field, in source order: null or empty
      first, then too long. Both throw the same message. */
  function CheckText(s: Option<string>, message: Message): (r: Outcome)
    ensures r.Pass? <==> ValidText(s)
    ensures r.Fail? ==> r.error == InvalidRequestData(message)
  {
    if s.None? || |s.value| == 0 then Fail(InvalidRequestData(message))
    else if |s.value| > MaxTextLength then Fail(InvalidRequestData(message))
    else Pass
  }

  /** AccountValidator.validateAccountData: title, then customerId. */
  function ValidateAccount(a: Account): (r: Outcome)
    ensures r.Pass? <==> ValidText(a.title) && a.customerId.Some?
    ensures !ValidText(a.title) ==> r == Fail(InvalidRequestData(InvalidPropertyTitle))
    ensures ValidText(a.title) && a.customerId.None? ==> r == Fail(InvalidRequestData(InvalidPropertyCustomerId))
  {
    match CheckText(a.title, InvalidPropertyTitle)
    case Fail(e) => Fail(e)
    case Pass =>
      if a.customerId.None? then Fail(InvalidRequestData(InvalidPropertyCustomerId))
      else Pass
  }

  /** CustomerValidator.validateCustomerData: first name, then last name. */
  function ValidateCustomer(c: Customer): (r: Outcome)
    ensures r.Pass? <==> ValidText(c.firstName) && ValidText(c.lastName)
    ensures !ValidText(c.firstName) ==> r == Fail(InvalidRequestData(InvalidPropertyFirstName))
    ensures ValidText(c.firstName) && !ValidText(c.lastName) ==> r == Fail(InvalidRequestData(InvalidPropertyLastName))
  {
    match CheckText(c.firstName, InvalidPropertyFirstName)
    case Fail(e) => Fail(e)
    case Pass => CheckText(c.lastName, InvalidPropertyLastName)
  }

  /** TransactionValidator.validateTransactionData: title, amount present,
      sender present, receiver present, sender differs from receiver. The
      sign of the amount is never looked at. */
  function ValidateTransaction(t: Transaction): (r: Outcome)
    ensures r.Pass? <==>
      && ValidText(t.title)
      && t.amount.Some?
      && t.senderAccountId.Some?
      && t.receiverAccountId.Some?
      && t.senderAccountId != t.receiverAccountId
    ensures r.Fail? ==> r.error == InvalidRequestData(FirstFailure(t))
  {
    match CheckText(t.title, InvalidPropertyTitle)
    case Fail(e) => Fail(e)
    case Pass =>
      if t.amount.None? then Fail(InvalidRequestData(InvalidPropertyAmount))
      else if t.senderAccountId.None? then Fail(InvalidRequestData(InvalidPropertySenderAccountId))
      else if t.receiverAccountId.None? then Fail(InvalidRequestData(InvalidPropertyReceiverAccountId))
      else if t.senderAccountId == t.receiverAccountId then Fail(InvalidRequestData(SameAccount))
      else Pass
  }

  /** The message of the earliest check, in source order, that the request
      fails (SameAccount when it fails none before the last). */
  function FirstFailure(t: Transaction): Message {
    if !ValidText(t.title) then InvalidPropertyTitle
    else if t.amount.None? then InvalidPropertyAmount
    else if t.senderAccountId.None? then InvalidPropertySenderAccountId
    else if t.receiverAccountId.None? then InvalidPropertyReceiverAccountId
    else SameAccount
  }

  /** A bad title is reported whatever else is wrong, and the title
      boundary sits exactly at 255 characters. */
  lemma TitleCheckedFirst(t: Transaction)
    ensures !ValidText(t.title) ==> ValidateTransaction(t) == Fail(InvalidRequestData(InvalidPropertyTitle))
    ensures t.title.Some? && |t.title.value| == MaxTextLength ==> CheckText(t.title, InvalidPropertyTitle).Pass?
    ensures t.title.Some? && |t.title.value| == MaxTextLength + 1 ==> ValidateTransaction(t).Fail?
  {
  }

  /** Validation reads neither the balance of an account nor the id or
      timestamps of any request. */
  lemma ValidatorsIgnoreOtherFields(a: Account, c: Customer, t: Transaction, id: Option<int>, b: Option<Money>, s: Option<Stamp>)
    ensures ValidateAccount(a.(balance := b, id := id, updated := s, created := s)) == ValidateAccount(a)
    ensures ValidateCustomer(c.(id := id, updated := s, created := s)) == ValidateCustomer(c)
    ensures ValidateTransaction(t.(id := id, updated := s, created := s)) == ValidateTransaction(t)
  {
  }

  /** A negative amount passes validation. */
  lemma NegativeAmountPassesValidation(t: Transaction)
    requires ValidText(t.title) && t.senderAccountId.Some? && t.receiverAccountId.Some?
    requires t.senderAccountId != t.receiverAccountId
    requires t.amount.Some? && t.amount.value < 0
    ensures ValidateTransaction(t) == Pass
  {
  }
}
